=== FILE: README.md ===
# Room chat: relay, room state and client guards in Dafny

This project models the real-time core of a room-based chat application. It
has a Node server that relays events with Socket.IO, and a React client.

The model covers three parts:

- **Server.** The connection handlers for `join_room`, `send_message`,
  `typing` and `disconnect` act on an abstract room registry. The registry
  maps each room id to a set of connections, and each connection carries the
  identity the handlers read from it. A trace of handler steps also tracks
  which connections are open and what each connection has received, in
  delivery order. On a disconnect, Socket.IO's own cleanup takes the
  connection out of every room. A trace fixes which identity the handlers
  see: the one the code as written reads, or the one the client sent with
  its handshake (see "## Findings").
- **Client state.** This covers:
  - the displayed room: its initial value, the fixed catalog of mock rooms,
    `switchRoom` and `addMessage`;
  - the connection manager: auth, connect, listeners, auto-join, own-message
    marking and the three emitters;
  - the composer: send, the Enter key rule, the Send button, and the join
    issued on a room change.
- **Client guards.** These are the register and login forms (field updates,
  ordered validation, and how the reply is handled) and the two route guards
  with the route table.

Each handler is one atomic, pure step over immutable state. These inputs are
parameters rather than computed:

- the wall clock, as `Clock(now, localTime)`;
- the authentication context's reply, as `Reply`.

Modules:

| file | module | models |
|---|---|---|
| text.dfy | `Text` | `String.prototype.trim` and the "blank after trim" test |
| protocol.dfy | `Protocol` | identity, message record, client and server events |
| socket_server.dfy | `SocketServer` | the server's connection handlers |
| relay.dfy | `Relay` | handler steps over time, with per-connection inboxes |
| room_state.dfy | `RoomState` | the client's room provider |
| client_socket.dfy | `ClientSocket` | the client's socket provider |
| composer.dfy | `Composer` | the chat window's composer and join effect |
| auth_forms.dfy | `AuthForms` | the register and login pages' handlers |
| routes.dfy | `Routes` | `ProtectedRoute`, `PublicRoute`, the route table |
| end_to_end.dfy | `EndToEnd` | composer to server to receive listener, combined |

### Behaviour of the code worth knowing

Where the code itself is evidently wrong, the model has both the code as
written and a corrected version, and says which is which (see "## Findings").

- The server does not reject an empty message body or a sender outside the
  room: `SocketServer.OnSendMessage` always relays.
- The server does not reject a typing signal from a connection outside the
  room.
- A sender gets its own message back. The server uses `io.to(roomId)`, so a
  sender that is a member receives its own message. The client adds no local
  copy, so the message is shown once per attached `receive_message`
  listener: once until the connection effect re-runs, and more often after
  that (second finding). As written, the echo is also never marked as the
  sender's own (first finding).
- There is no leave operation. No handler removes a membership; a
  connection leaves its rooms only when it disconnects, through Socket.IO's
  leave-all (`Relay.MembershipOnlyGrows`, `Relay.DisconnectEndsDelivery`).
- A received message is not placed in the room it was sent to. The server's
  record carries no room id, and the client's `receive_message` listener
  appends every message to the displayed room, whatever room it came from
  (`ClientSocket.Dispatch`).
- Shift+Enter sends too. The key handler only acts on Enter without Shift,
  but the input sits in a form whose Send button submits it, so the
  browser's implicit submission sends non-blank text on Shift+Enter
  (`Composer.InputKeyPress`).

## Model

| member | source | states |
|---|---|---|
| Text.Trim | client/src/components/Chat/ChatWindow.jsx:32 | `trim` leaves a slice of the text with only whitespace before and after it; the slice neither starts nor ends with whitespace, and it is empty exactly when every character is whitespace |
| SocketServer.DisplayName | server/src/app.js:53 | the record's `user` is the connection's username when it is a non-empty string, else "Anonymous"; it is never empty |
| SocketServer.AdmitAsWritten | server/src/app.js:35-36 | as written, the identity every handler reads for a new connection is undefined, whatever auth the client sent; the connection is admitted and no membership changes |
| SocketServer.Admit | server/src/app.js:35-36 | a new connection gets the identity sent with its handshake, is in no room, and other connections keep their identities |
| SocketServer.OnJoinRoom | server/src/app.js:39-47 | the joiner is added to the room, every other room's members are unchanged, and `user_joined` with the joiner's userId and username goes to the earlier members except the joiner |
| SocketServer.OnSendMessage | server/src/app.js:50-67 | a send is always relayed, with no membership or emptiness check and no state change; every room member gets a record with the text verbatim and user, userId from the connection, `isOwn` false; the sender gets it exactly when it is a member |
| SocketServer.OnTyping | server/src/app.js:70-75 | `user_typing` goes to every member except the sender, with the connection's username and the flag unchanged |
| SocketServer.OnDisconnect | server/src/app.js:77-79 | the disconnect handler changes no membership and emits nothing |
| SocketServer.LeaveAll | server/src/app.js:77-79 | Socket.IO's cleanup alongside the `disconnect` handler: the closed connection is in no room afterwards, every other membership is unchanged, and no identity changes |
| SocketServer.Handle | server/src/app.js:39-75 | no event handler changes the identities or removes a membership, and each keeps every member an admitted connection |
| SocketServer.AttributionIgnoresPayload | server/src/app.js:51-73 | two payloads from one connection are attributed identically, so attribution never comes from the payload |
| Relay.Deliver | server/src/app.js:66 | a broadcast adds its event once to the end of each recipient's inbox and leaves other inboxes alone |
| Relay.Step | server/src/app.js:35-80 | one input under the trace's admission: a new connection is open and carries the identity that admission gives it (none as written, the handshake's when corrected); events and disconnects from connections that are not open change nothing; a disconnect closes the connection for good and takes it out of every room; open connections keep their rooms; connections that are not open receive nothing |
| Relay.RunAppend | server/src/app.js:35-80 | handling a concatenated input sequence is handling its halves in turn |
| Relay.RunKeepsConsistent | server/src/app.js:35-80 | over any run, every open connection was admitted and only open connections are room members |
| Relay.InboxOnlyGrows | server/src/app.js:43-75 | over any run, what a connection received stays a prefix of what it will have received |
| Relay.MembershipOnlyGrows | server/src/app.js:39-79 | over any run, a member of a room that is still open at the end is still a member: no handler removes a membership, only a disconnect does |
| Relay.ClosedStaysClosed | server/src/app.js:77-79 | over any run, a closed connection stays closed and its id stays taken |
| Relay.ClosedReceivesNothing | server/src/app.js:43-75 | over any run, a closed connection's inbox never changes |
| Relay.DisconnectEndsDelivery | server/src/app.js:77-79 | whatever follows a connection's disconnect, nothing more is delivered to it |
| Relay.RelayPreservesOrder | server/src/app.js:50-67 | two sends to a room, in order, reach every member in that order, right after its earlier events |
| Relay.NoTypingEcho | server/src/app.js:70-75 | a typing signal never changes its sender's inbox |
| Relay.JoinStep | server/src/app.js:39-47 | a join step adds the joiner to the room and delivers the announcement to exactly the earlier members other than the joiner |
| Relay.SendStep | server/src/app.js:50-67 | a send step delivers the record to exactly the room's members and changes no server state |
| Relay.TypingStep | server/src/app.js:70-75 | a typing step delivers the signal to exactly the room's other members |
| Relay.HelloScenario | server/src/app.js:39-75 | with identity from the handshake: alice and bob join room 1 and alice sends "hello" then types; bob receives the message as alice's, then the signal; alice receives bob's join and her own echo, but no typing echo |
| Relay.HelloScenarioAsWritten | server/src/app.js:39-75 | as written, the same run delivers the message as "Anonymous" with no user id, the typing signal and the join with no name or id, and still no typing echo |
| Relay.HelloRun | server/src/app.js:39-75 | under either admission, the same run delivers the same events in the same order, attributed to whatever identity each connection carries |
| RoomState.InitialIsGeneral | client/src/context/RoomContext.jsx:14-22 | the initial room is catalog room 1, "General", with the seeded messages 1, 2, 3 in order |
| RoomState.CatalogKeysAreIds | client/src/context/RoomContext.jsx:25-53 | the catalog holds rooms 1, 2 and 3, each under its own id |
| RoomState.SwitchRoom | client/src/context/RoomContext.jsx:55-60 | a catalog id selects exactly that catalog room; any other id leaves the current room unchanged |
| RoomState.AddMessage | client/src/context/RoomContext.jsx:62-73 | id and name are kept; the list grows by one at the end and earlier messages are unchanged; the new message keeps every field except id and timestamp, which come from the clock |
| RoomState.AddAllInOrder | client/src/context/RoomContext.jsx:62-73 | successive adds append in arrival order after the existing history, each message changed only in id and timestamp |
| RoomState.SwitchAwayAndBack | client/src/context/RoomContext.jsx:55-72 | after a message is added to a catalog room, switching away and back shows the catalog's three seeded messages without it |
| ClientSocket.ConnectEffect | client/src/context/SocketContext.jsx:30-65 | with no user, the socket is untouched and no cleanup is registered; with a user, auth is `{username, userId: user.id}`, the socket connects, each listener is attached once more, and nothing is emitted |
| ClientSocket.CleanupAsWritten | client/src/context/SocketContext.jsx:67-69 | the cleanup disconnects and leaves every listener attached |
| ClientSocket.Cleanup | client/src/context/SocketContext.jsx:67-69 | the corrected cleanup disconnects and detaches one copy of each listener |
| ClientSocket.CleanupUndoesEffect | client/src/context/SocketContext.jsx:30-69 | the corrected cleanup restores the listeners from before the effect; the written cleanup does not |
| ClientSocket.OnConnected | client/src/context/SocketContext.jsx:35-41 | on connect, one `connect` listener emits `join_room` with the room id current when it was attached, exactly when that id is truthy |
| ClientSocket.EmitJoinRoom | client/src/context/SocketContext.jsx:73-75 | `joinRoom` emits `join_room` with the bare id |
| ClientSocket.EmitSendMessage | client/src/context/SocketContext.jsx:77-79 | `sendMessage` emits `send_message` with room id and text unchanged |
| ClientSocket.EmitTyping | client/src/context/SocketContext.jsx:81-83 | `sendTyping` emits `typing` with room id and flag unchanged |
| ClientSocket.MarkOwn | client/src/context/SocketContext.jsx:44-51 | the message passed to `addMessage` equals the received one except `isOwn`, which holds exactly when its userId equals the signed-in user's id |
| ClientSocket.Dispatch | client/src/context/SocketContext.jsx:44-51 | one incoming message is appended once per attached message listener, with its text and sender kept and `isOwn` set by user id |
| ClientSocket.ListenersAccumulate | client/src/context/SocketContext.jsx:30-71 | as written, after n re-runs of the effect every listener is attached n + 1 more times |
| ClientSocket.ListenersNeverAccumulate | client/src/context/SocketContext.jsx:30-71 | with the corrected cleanup, any number of re-runs leave each listener attached exactly once more than at the start |
| ClientSocket.DuplicateAfterRerun | client/src/context/SocketContext.jsx:44-69 | as written, after one re-run a single relayed message is added to the room twice |
| ClientSocket.AddedOnceAfterReruns | client/src/context/SocketContext.jsx:44-69 | with the corrected cleanup, after any number of re-runs a relayed message is added exactly once |
| Composer.HandleSendMessage | client/src/components/Chat/ChatWindow.jsx:30-37 | whitespace-only text is not sent and stays in the input; otherwise the untrimmed text is sent to the current room and the input becomes empty |
| Composer.HandleKeyPress | client/src/components/Chat/ChatWindow.jsx:39-44 | the key handler alone: Enter without Shift attempts a send; for Shift+Enter and every other key the handler changes nothing and sends nothing |
| Composer.FormSubmit | client/src/components/Chat/ChatWindow.jsx:113-124 | the form's submission sends exactly when the Send button is enabled, sending the untrimmed text to the current room and clearing the input; otherwise nothing changes |
| Composer.InputKeyPress | client/src/components/Chat/ChatWindow.jsx:39-124 | a key in the composer input, key handler then form: Enter sends as the send handler does, with or without Shift; no other key sends or changes the text; a send happens exactly on Enter with a non-whitespace character in the text |
| Composer.SendEnabled | client/src/components/Chat/ChatWindow.jsx:124 | the Send button is enabled exactly when the text has a character that is not whitespace |
| Composer.SendEnabledIffSends | client/src/components/Chat/ChatWindow.jsx:122-128 | the Send button is enabled exactly when the send handler would emit |
| Composer.SentTextIsVisible | client/src/components/Chat/ChatWindow.jsx:32-36 | sent text always has a non-whitespace character, and the input is empty afterwards |
| Composer.NoDoubleSend | client/src/components/Chat/ChatWindow.jsx:32-44 | an Enter press straight after a send sends nothing |
| Composer.RoomChangeJoin | client/src/components/Chat/ChatWindow.jsx:24-28 | on a room change, one `join_room` with the room id is issued exactly when the id is truthy |
| AuthForms.ReplyError | client/src/components/Auth/RegisterPage.jsx:55-62 | the reply decides the error: none on success, the reply's own error on failure, "An unexpected error occurred" when the call throws |
| AuthForms.UpdateRegister | client/src/components/Auth/RegisterPage.jsx:18-23 | an input change sets only the named field; the other three keep their values |
| AuthForms.FillRegister | client/src/components/Auth/RegisterPage.jsx:7-23 | starting from the empty form, one input change per field gives exactly the values typed |
| AuthForms.FreshFormsAskToFill | client/src/components/Auth/RegisterPage.jsx:7-35 | submitting either form as first shown gives "Please fill in all fields", calls nothing and ends not loading, whatever the reply would be |
| AuthForms.RegisterCheck | client/src/components/Auth/RegisterPage.jsx:31-53 | no error exactly when all four requirements hold; otherwise the first failing check's message, in order: blank field, short username, short password, mismatch |
| AuthForms.SubmitRegister | client/src/components/Auth/RegisterPage.jsx:25-65 | `register` is called with the whole form exactly when every check passes; the error is the first failing check's or the reply's; loading ends false |
| AuthForms.RegisterRequestIgnoresReply | client/src/components/Auth/RegisterPage.jsx:55-64 | whether `register` is called does not depend on its reply, and a successful reply leaves no error |
| AuthForms.UpdateLogin | client/src/components/Auth/LoginPage.jsx:16-21 | an input change sets only the named field |
| AuthForms.SubmitLogin | client/src/components/Auth/LoginPage.jsx:23-45 | a blank email or password gives "Please fill in all fields" with no call; otherwise `login` gets the untrimmed email and password and the reply decides the error; loading ends false |
| Routes.ProtectedRoute | client/src/App.jsx:9-21 | the loading view while loading; then the child exactly when a user is present, otherwise a redirect to /login |
| Routes.PublicRoute | client/src/App.jsx:24-36 | the loading view while loading; then a redirect to /chat exactly when a user is present, otherwise the child |
| Routes.Resolve | client/src/App.jsx:38-59 | a path is compared in canonical form (ASCII letters lower-cased, trailing slashes dropped); nothing matches exactly the paths whose canonical form is not `/login`, `/register`, `/chat` or `/`; the loading view shows exactly on the three guarded routes while loading; `/` redirects to `/chat`; every redirect goes to `/chat` or `/login`; a page renders only after loading, and it is the chat layout exactly when a user is present |
| Routes.CanonicalIffMatches | client/src/App.jsx:41-56 | for a route spelled as the table spells it, a path's canonical form equals the route exactly when the path matches the route the router's default way: case-insensitively, followed by any number of slashes |
| Routes.VariantsMatch | client/src/App.jsx:51-55 | `/CHAT/` reaches the `/chat` route |
| Routes.ChatNeedsUser | client/src/App.jsx:38-59 | the chat layout renders exactly on paths the router matches to /chat (case variants and trailing slashes included) once loading has finished and a user is present; each form renders exactly on paths matching its own route with loading finished and no user |
| Routes.RedirectsSettle | client/src/App.jsx:9-56 | from any path, at most two redirects reach a non-redirect; routed paths show the loading view, the chat for a user, or, with no user, the login page (the register page at `/register`) |
| EndToEnd.OwnMessageEchoedOnce | server/src/app.js:50-66 | with identity from the handshake: after connect and auto-join, the effect has attached exactly one `receive_message` listener; non-blank composer text comes back to the sender and is added to the room exactly once, attributed to them, marked as their own, with the text unchanged |
| EndToEnd.AsWrittenEchoIsAnonymous | server/src/app.js:51-60 | as written, a signed-in user's own message is added once through the one attached listener, as "Anonymous" and not marked as theirs |
| EndToEnd.OthersSeeSender | client/src/context/SocketContext.jsx:44-50 | every room member receives the text attributed to the sender connection's identity, and marks it as its own exactly when that identity carries the member's user id; with no identity, as written, it reads "Anonymous" and is nobody's own |
| EndToEnd.EmittersReachHandlers | client/src/context/SocketContext.jsx:73-83 | the event each client emitter queues is one the matching server handler accepts: a join puts the sender in that room, a send reaches every member of that room with the text unchanged, and a typing signal reaches every other member with the flag unchanged |

## Left out

- Express, HTTP routes, MongoDB, CORS, dotenv and port listening (server/src/app.js:1-32, 82-85) are I/O setup. The `/api/auth` routes are not part of this model.
- Logging (`console.log`) in every handler has no effect on state.
- Socket.IO transport is left out: the handshake itself, the room each socket has under its own id, reconnection under a new id, and delivery failures. Of the library's cleanup on disconnect only the leave-all is modelled (`SocketServer.LeaveAll`).
- Relay.Step: an event or disconnect from an id that is not open, or a second connection with a used id, is treated as a no-op. Socket.IO never produces any of these.
- `Date.now()` and `toLocaleTimeString` are the `Clock` parameter. Their values are never computed.
- The `login` and `register` calls of the authentication context are not part of this model. Their outcome is the `Reply` parameter. An undefined `result.error` is not modelled.
- The React runtime is left out: when effects run or re-run, re-render timing, and async interleaving. Each handler is one atomic step, so the transient `loading: true` of the forms is not observable.
- ClientSocket.ListenersAccumulate does not model when React re-runs the effect. The re-run count is a parameter.
- Rendering is left out: animations, scrolling, the call buttons' `alert`s, the typing bubble, and Sidebar, UserPanel and ChatLayout.
- The client's `user_typing`, `user_joined` and `disconnect` listeners only log, so they are modelled only as attached listeners. No component shown calls `sendTyping`, and `ChatWindow`'s `isTyping` is never set.
- Payloads have fixed types: room ids are integers, message text is a string, and `isTyping` is a boolean. A non-string message, an undefined room id, and string keys such as `rooms["1"]` are not modelled.
- The fallback room context that the socket provider uses when no room provider exists is not modelled. It has a null current room. The auto-join's "no room" case is modelled as `None`.
- AuthForms.RegisterCheck counts length in Unicode scalar values. JavaScript's `length` counts UTF-16 code units, so the two differ for characters outside the Basic Multilingual Plane.
- Routes.Resolve: a path is matched after ASCII case folding and dropping trailing slashes, which is React Router's default matching for these routes. Its percent-decoding of the pathname and any basename are not modelled.
- Routes.ChatNeedsUser: states matching in the router's default way (`Routes.Matches`), with the same limits as `Routes.Resolve`.
- Composer.InputKeyPress: takes the browser to run implicit submission on Shift+Enter, as Chromium does. The HTML standard leaves the keys that trigger it to the browser.
- ClientSocket.MarkOwn: the signed-in user's `id` is taken to be a defined string, because the authentication context is not part of this model. If `user.id` were undefined, `undefined === undefined` would mark every as-written echo as own, and `EndToEnd.AsWrittenEchoIsAnonymous` relies on this typing for its not-own clause.
- Text.IsSpace lists the whitespace `trim` removes under the current Unicode Space_Separator category. Later Unicode versions may add characters.

## Findings

| source | as written | input that shows it | evidently intended | confidence | as-written member | corrected member |
|---|---|---|---|---|---|---|
| server/src/app.js:41-72 | the handlers read `socket.auth`, which nothing on the server assigns. Socket.IO delivers the client's auth object as `socket.handshake.auth` | a client signed in as alice (id "id1") joins room 1 and sends "hi". The echo says user "Anonymous" with no userId, so the client does not mark it as alice's | read the identity the client sent with the handshake | high for the code shown; it rests on Socket.IO's server API, which is not part of this model, and the not-own consequence also assumes the client's `user.id` is defined; not executed | `SocketServer.AdmitAsWritten` (see `EndToEnd.AsWrittenEchoIsAnonymous`, `Relay.HelloScenarioAsWritten`) | `SocketServer.Admit` (see `EndToEnd.OwnMessageEchoedOnce`, `Relay.HelloScenario`) |
| client/src/context/SocketContext.jsx:30-71 | the effect attaches five listeners with `socket.on`, but its cleanup only calls `socket.disconnect()`. The effect re-runs whenever `addMessage` changes, and that is a new closure on every room-provider render | the effect runs, cleans up, then runs again. One incoming `receive_message` is then added to the room twice. The `connect` listeners stay too, so after a room switch a reconnect also re-joins the earlier room | the cleanup detaches the listeners it attached (`socket.off`) | high; not executed | `ClientSocket.CleanupAsWritten` (see `ClientSocket.DuplicateAfterRerun`) | `ClientSocket.Cleanup` (see `ClientSocket.AddedOnceAfterReruns`) |

=== FILE: auth_forms.dfy ===
/** The register and login forms: field updates, the ordered validation
    chains, and how the submit handler turns the authentication context's
    reply into the error shown and the loading flag. */
module AuthForms {
  import opened Protocol
  import opened Text

  /** The validation failures the forms report, in the order checked. */
  datatype Invalid = FillAllFields | UsernameTooShort | PasswordTooShort | PasswordsDiffer {
    /** The message `setError` shows. */
    function Message(): string {
      match this
      case FillAllFields => "Please fill in all fields"
      case UsernameTooShort => "Username must be at least 3 characters long"
      case PasswordTooShort => "Password must be at least 6 characters long"
      case PasswordsDiffer => "Passwords don't match"
    }
  }

  const Unexpected := "An unexpected error occurred"

  /** What `register` or `login` did: resolved with `success`, resolved with
      an `error`, or threw. */
  datatype Reply = Succeeded | Failed(error: string) | Threw

  /** The form after a submit: the request made to the authentication
      context (if any), the error shown, and the loading flag. */
  datatype Submission<Req> = Submission(request: Option<Req>, error: string, loading: bool)

  /** The error a reply leaves: none on success, the reply's own on failure,
      the generic message when the call threw. */
  function ReplyError(reply: Reply): (e: string)
    ensures reply.Succeeded? ==> e == ""
    ensures reply.Failed? ==> e == reply.error
    ensures reply.Threw? ==> e == Unexpected
  {
    match reply
    case Succeeded => ""
    case Failed(err) => err
    case Threw => Unexpected
  }

  // ---- Register ----

  datatype RegisterForm = RegisterForm(username: string, email: string, password: string, confirmPassword: string)
  datatype RegisterField = Username | Email | Password | ConfirmPassword

  /** The register form as the page first shows it. */
  const EmptyRegister := RegisterForm("", "", "", "")

  function RegisterValue(f: RegisterForm, field: RegisterField): string {
    match field
    case Username => f.username
    case Email => f.email
    case Password => f.password
    case ConfirmPassword => f.confirmPassword
  }

  /** `handleInputChange`: the named field takes the new value, the other
      three keep theirs. */
  function UpdateRegister(f: RegisterForm, field: RegisterField, value: string): (r: RegisterForm)
    ensures RegisterValue(r, field) == value
    ensures forall g :: g != field ==> RegisterValue(r, g) == RegisterValue(f, g)
  {
    match field
    case Username => f.(username := value)
    case Email => f.(email := value)
    case Password => f.(password := value)
    case ConfirmPassword => f.(confirmPassword := value)
  }

  /** Some field is empty after trimming. */
  predicate AnyBlank(f: RegisterForm) {
    IsBlank(f.username) || IsBlank(f.email) || IsBlank(f.password) || IsBlank(f.confirmPassword)
  }

  /** The four requirements a registration must meet, stated together. */
  predicate RegisterAcceptable(f: RegisterForm) {
    && !AllSpace(f.username) && !AllSpace(f.email)
    && !AllSpace(f.password) && !AllSpace(f.confirmPassword)
    && |f.username| >= 3
    && |f.password| >= 6
    && f.password == f.confirmPassword
  }

  /** The validation chain of `handleSubmit`: the first failing check's
      message, or none when all pass. Lengths are of the raw, untrimmed text. */
  function RegisterCheck(f: RegisterForm): (err: Option<Invalid>)
    ensures err.None? <==> RegisterAcceptable(f)
    ensures err == Some(FillAllFields) <==> AnyBlank(f)
    ensures err == Some(UsernameTooShort) <==> !AnyBlank(f) && |f.username| < 3
    ensures err == Some(PasswordTooShort) <==> !AnyBlank(f) && |f.username| >= 3 && |f.password| < 6
    ensures err == Some(PasswordsDiffer)
        <==> !AnyBlank(f) && |f.username| >= 3 && |f.password| >= 6 && f.password != f.confirmPassword
  {
    if AnyBlank(f) then Some(FillAllFields)
    else if |f.username| < 3 then Some(UsernameTooShort)
    else if |f.password| < 6 then Some(PasswordTooShort)
    else if f.password != f.confirmPassword then Some(PasswordsDiffer)
    else None
  }

  /** `handleSubmit` of the register form, one atomic step: `register` is
      called with the whole form exactly when every check passes; the error
      shown is the first failing check's, else the reply's; loading ends false. */
  function SubmitRegister(f: RegisterForm, reply: Reply): (s: Submission<RegisterForm>)
    ensures !s.loading
    ensures s.request.Some? <==> RegisterAcceptable(f)
    ensures s.request.Some? ==> s.request.value == f && s.error == ReplyError(reply)
    ensures s.request.None? ==> s.error == RegisterCheck(f).value.Message()
  {
    match RegisterCheck(f)
    case Some(err) => Submission(None, err.Message(), false)
    case None => Submission(Some(f), ReplyError(reply), false)
  }

  // ---- Login ----

  datatype LoginForm = LoginForm(email: string, password: string)
  datatype LoginField = LoginEmail | LoginPassword

  /** The login form as the page first shows it. */
  const EmptyLogin := LoginForm("", "")

  /** The argument of `login`. */
  datatype Credentials = Credentials(email: string, password: string)

  function LoginValue(f: LoginForm, field: LoginField): string {
    match field
    case LoginEmail => f.email
    case LoginPassword => f.password
  }

  /** `handleInputChange`: the named field takes the new value, the other keeps its own. */
  function UpdateLogin(f: LoginForm, field: LoginField, value: string): (r: LoginForm)
    ensures LoginValue(r, field) == value
    ensures forall g :: g != field ==> LoginValue(r, g) == LoginValue(f, g)
  {
    match field
    case LoginEmail => f.(email := value)
    case LoginPassword => f.(password := value)
  }

  /** `handleSubmit` of the login form: with a blank field nothing is
      requested; otherwise `login` gets both fields untrimmed and its reply
      decides the error; loading ends false. */
  function SubmitLogin(f: LoginForm, reply: Reply): (s: Submission<Credentials>)
    ensures !s.loading
    ensures s.request.Some? <==> !AllSpace(f.email) && !AllSpace(f.password)
    ensures s.request.Some? ==> s.request.value == Credentials(f.email, f.password) && s.error == ReplyError(reply)
    ensures s.request.None? ==> s.error == FillAllFields.Message()
  {
    if IsBlank(f.email) || IsBlank(f.password) then Submission(None, FillAllFields.Message(), false)
    else Submission(Some(Credentials(f.email, f.password)), ReplyError(reply), false)
  }

  /** Once the register checks pass, only the reply decides the outcome:
      any two replies ask for the same thing and differ only in the error. */
  lemma RegisterRequestIgnoresReply(f: RegisterForm, r1: Reply, r2: Reply)
    ensures SubmitRegister(f, r1).request == SubmitRegister(f, r2).request
    ensures SubmitRegister(f, Succeeded).error == "" || SubmitRegister(f, Succeeded).request.None?
  {
  }

  /** Filling in every field of a fresh register form, one input change at a
      time, gives exactly the values typed. */
  lemma FillRegister(username: string, email: string, password: string, confirm: string)
    ensures UpdateRegister(UpdateRegister(UpdateRegister(UpdateRegister(EmptyRegister,
              Username, username), Email, email), Password, password), ConfirmPassword, confirm)
            == RegisterForm(username, email, password, confirm)
  {
  }

  /** Submitting either form as first shown asks to fill in all fields and
      calls nothing, whatever the authentication context would reply. */
  lemma FreshFormsAskToFill(reply: Reply)
    ensures SubmitRegister(EmptyRegister, reply) == Submission(None, "Please fill in all fields", false)
    ensures SubmitLogin(EmptyLogin, reply) == Submission(None, "Please fill in all fields", false)
  {
    assert AllSpace("");
  }
}

=== FILE: client_socket.dfy ===
/** The client's connection manager (`SocketProvider`): the effect that
    authenticates, connects and attaches listeners, the `connect` listener's
    auto-join, the `receive_message` listener's own-message marking, and the
    three emitters. Socket.IO's client socket is modelled by what the provider
    does to it: its auth object, whether it is connected, the multiset of
    listeners attached, and the queue of events emitted. */
module ClientSocket {
  import opened Protocol
  import opened RoomState

  /** The signed-in user as the authentication context provides it. */
  datatype User = User(id: UserId, username: string)

  /** The listeners the provider attaches with `socket.on`. */
  datatype Listener =
    | ConnectListener | MessageListener | TypingListener | JoinedListener | DisconnectListener

  /** How many copies of each listener are attached to the socket. */
  datatype Attached = Attached(connect: nat, message: nat, typing: nat, joined: nat, disconnect: nat) {
    function Count(l: Listener): nat {
      match l
      case ConnectListener => connect
      case MessageListener => message
      case TypingListener => typing
      case JoinedListener => joined
      case DisconnectListener => disconnect
    }

    /** One more copy of every listener: the effect's five `socket.on` calls. */
    function WithOneOfEach(): (r: Attached)
      ensures forall l :: r.Count(l) == Count(l) + 1
    {
      Attached(connect + 1, message + 1, typing + 1, joined + 1, disconnect + 1)
    }

    /** One copy of every listener fewer, as far as there are any: `socket.off`
        for each listener a run of the effect attached. */
    function WithoutOneOfEach(): (r: Attached)
      ensures forall l :: r.Count(l) == if Count(l) > 0 then Count(l) - 1 else 0
    {
      Attached(if connect > 0 then connect - 1 else 0, if message > 0 then message - 1 else 0,
               if typing > 0 then typing - 1 else 0, if joined > 0 then joined - 1 else 0,
               if disconnect > 0 then disconnect - 1 else 0)
    }
  }

  datatype Sock = Sock(
    auth: Option<Auth>,
    connected: bool,
    listeners: Attached,
    outbox: seq<ClientEvent>)

  const Idle := Sock(None, false, Attached(0, 0, 0, 0, 0), [])

  datatype EffectRun = EffectRun(sock: Sock, hasCleanup: bool)

  /** The provider's effect. With no user it does nothing and registers no
      cleanup; with a user it sets the auth object, connects and attaches one
      of each listener. */
  function ConnectEffect(sock: Sock, user: Option<User>): (e: EffectRun)
    ensures user.None? ==> e.sock == sock && !e.hasCleanup
    ensures user.Some? ==>
      && e.sock.auth == Some(Auth(user.value.username, user.value.id))
      && e.sock.connected
      && e.sock.listeners == sock.listeners.WithOneOfEach()
      && e.sock.outbox == sock.outbox
      && e.hasCleanup
  {
    if user.None? then EffectRun(sock, false)
    else
      var u := user.value;
      EffectRun(Sock(Some(Auth(u.username, u.id)), true, sock.listeners.WithOneOfEach(), sock.outbox), true)
  }

  /** The effect's cleanup as written: `socket.disconnect()` and nothing
      else, so every listener stays attached. */
  function CleanupAsWritten(sock: Sock): (r: Sock)
    ensures !r.connected
    ensures r.listeners == sock.listeners && r.auth == sock.auth && r.outbox == sock.outbox
  {
    sock.(connected := false)
  }

  /** The cleanup the effect needs: disconnect and detach the listeners
      this run of the effect attached. */
  function Cleanup(sock: Sock): (r: Sock)
    ensures !r.connected
    ensures forall l :: r.listeners.Count(l) == if sock.listeners.Count(l) > 0 then sock.listeners.Count(l) - 1 else 0
    ensures r.auth == sock.auth && r.outbox == sock.outbox
  {
    sock.(connected := false, listeners := sock.listeners.WithoutOneOfEach())
  }

  /** The corrected cleanup undoes what the effect attached. */
  lemma CleanupUndoesEffect(sock: Sock, u: User)
    ensures Cleanup(ConnectEffect(sock, Some(u)).sock).listeners == sock.listeners
    ensures CleanupAsWritten(ConnectEffect(sock, Some(u)).sock).listeners != sock.listeners
  {
  }

  /** Appends an event to the socket's outgoing queue. */
  function Emit(sock: Sock, ev: ClientEvent): (r: Sock)
    ensures r.outbox == sock.outbox + [ev]
    ensures r.auth == sock.auth && r.connected == sock.connected && r.listeners == sock.listeners
  {
    sock.(outbox := sock.outbox + [ev])
  }

  /** The `connect` listener: joins the room that was current when the
      effect ran, if its id is truthy. */
  function OnConnected(sock: Sock, currentRoomId: Option<RoomId>): (r: Sock)
    ensures Truthy(currentRoomId) ==> r.outbox == sock.outbox + [JoinRoom(currentRoomId.value)]
    ensures !Truthy(currentRoomId) ==> r == sock
    ensures r.listeners == sock.listeners && r.connected == sock.connected
  {
    if Truthy(currentRoomId) then Emit(sock, JoinRoom(currentRoomId.value)) else sock
  }

  /** `joinRoom(roomId)`: emits `join_room` with the bare id. */
  function EmitJoinRoom(sock: Sock, roomId: RoomId): (r: Sock)
    ensures r.outbox == sock.outbox + [JoinRoom(roomId)]
  {
    Emit(sock, JoinRoom(roomId))
  }

  /** `sendMessage(roomId, message)`: emits `send_message` with the text as given. */
  function EmitSendMessage(sock: Sock, roomId: RoomId, message: string): (r: Sock)
    ensures r.outbox == sock.outbox + [SendMessage(roomId, message)]
  {
    Emit(sock, SendMessage(roomId, message))
  }

  /** `sendTyping(roomId, isTyping)`: emits `typing` with the flag as given. */
  function EmitTyping(sock: Sock, roomId: RoomId, isTyping: bool): (r: Sock)
    ensures r.outbox == sock.outbox + [Typing(roomId, isTyping)]
  {
    Emit(sock, Typing(roomId, isTyping))
  }

  /** The `receive_message` listener's argument to `addMessage`: the server's
      record with `isOwn` recomputed by comparing user ids. */
  function MarkOwn(user: User, data: ChatMessage): (m: ChatMessage)
    ensures m.isOwn <==> data.userId == Some(user.id)
    ensures m.(isOwn := data.isOwn) == data
  {
    data.(isOwn := data.userId == Some(user.id))
  }

  /** `n` copies of `m`. */
  function Copies(m: ChatMessage, n: nat): (r: seq<ChatMessage>)
    ensures |r| == n && forall i :: 0 <= i < n ==> r[i] == m
  {
    seq(n, _ => m)
  }

  /** An incoming `receive_message` runs every attached message listener,
      each adding the marked message to the current room. */
  function Dispatch(room: Room, sock: Sock, user: User, data: ChatMessage, clocks: seq<Clock>): (r: Room)
    requires |clocks| == sock.listeners.Count(MessageListener)
    ensures r.id == room.id && r.name == room.name
    ensures |r.messages| == |room.messages| + sock.listeners.Count(MessageListener)
    ensures r.messages[..|room.messages|] == room.messages
    ensures forall i :: |room.messages| <= i < |r.messages| ==>
      r.messages[i].message == data.message && r.messages[i].user == data.user
      && (r.messages[i].isOwn <==> data.userId == Some(user.id))
  {
    var n := sock.listeners.Count(MessageListener);
    var ms := Copies(MarkOwn(user, data), n);
    AddAllInOrder(room, ms, clocks);
    var r := AddAll(room, ms, clocks);
    assert forall i :: |room.messages| <= i < |r.messages| ==> r.messages[i] == ms[i - |room.messages|].(id := clocks[i - |room.messages|].now, timestamp := clocks[i - |room.messages|].localTime);
    r
  }

  /** The socket after the effect has run `n + 1` times for the same user,
      each re-run preceded by the previous run's cleanup, as written. */
  function RerunsAsWritten(sock: Sock, u: User, n: nat): Sock {
    if n == 0 then ConnectEffect(sock, Some(u)).sock
    else ConnectEffect(CleanupAsWritten(RerunsAsWritten(sock, u, n - 1)), Some(u)).sock
  }

  /** The same with the corrected cleanup. */
  function Reruns(sock: Sock, u: User, n: nat): Sock {
    if n == 0 then ConnectEffect(sock, Some(u)).sock
    else ConnectEffect(Cleanup(Reruns(sock, u, n - 1)), Some(u)).sock
  }

  /** As written, every re-run of the effect leaves one more copy of each
      listener attached. */
  lemma {:induction false} ListenersAccumulate(sock: Sock, u: User, n: nat)
    ensures var s := RerunsAsWritten(sock, u, n);
      && s.connected
      && forall l :: s.listeners.Count(l) == sock.listeners.Count(l) + n + 1
  {
    if n > 0 {
      ListenersAccumulate(sock, u, n - 1);
    }
  }

  /** With the corrected cleanup the socket carries exactly one copy of each
      listener beyond those it started with, however often the effect re-runs. */
  lemma {:induction false} ListenersNeverAccumulate(sock: Sock, u: User, n: nat)
    ensures var s := Reruns(sock, u, n);
      && s.connected
      && forall l :: s.listeners.Count(l) == sock.listeners.Count(l) + 1
  {
    if n > 0 {
      ListenersNeverAccumulate(sock, u, n - 1);
    }
  }

  /** As written: once the effect has re-run a single time, one relayed
      message is added to the room twice. */
  lemma DuplicateAfterRerun(room: Room, u: User, data: ChatMessage, k1: Clock, k2: Clock)
    ensures var s := RerunsAsWritten(Idle, u, 1);
      && s.listeners.Count(MessageListener) == 2
      && |Dispatch(room, s, u, data, [k1, k2]).messages| == |room.messages| + 2
  {
    ListenersAccumulate(Idle, u, 1);
  }

  /** Corrected: after any number of re-runs, one relayed message is added
      to the room exactly once. */
  lemma AddedOnceAfterReruns(room: Room, u: User, data: ChatMessage, k: Clock, n: nat)
    ensures var s := Reruns(Idle, u, n);
      && s.listeners.Count(MessageListener) == 1
      && |Dispatch(room, s, u, data, [k]).messages| == |room.messages| + 1
  {
    ListenersNeverAccumulate(Idle, u, n);
  }
}

=== FILE: composer.dfy ===
/** The message composer of the chat window: the send handler, the Enter
    key rule, the Send button's enable rule, and the join issued whenever
    the displayed room changes. */
module Composer {
  import opened Protocol
  import opened Text

  /** The composer text after a handler, and the event it asked the socket
      to emit, if any. */
  datatype SendOutcome = SendOutcome(text: string, emitted: Option<ClientEvent>)

  /** `handleSendMessage`: blank text is not sent and stays in the input;
      otherwise the untrimmed text goes to the current room and the input
      is cleared. */
  function HandleSendMessage(text: string, roomId: RoomId): (r: SendOutcome)
    ensures r.emitted.None? <==> AllSpace(text)
    ensures r.emitted.None? ==> r.text == text
    ensures r.emitted.Some? ==> r.emitted.value == SendMessage(roomId, text) && r.text == ""
  {
    if IsBlank(text) then SendOutcome(text, None)
    else SendOutcome("", Some(SendMessage(roomId, text)))
  }

  /** `handleKeyPress`: Enter without Shift attempts a send; every other key,
      and Shift+Enter, leaves the composer alone. */
  function HandleKeyPress(key: string, shiftKey: bool, text: string, roomId: RoomId): (r: SendOutcome)
    ensures key == "Enter" && !shiftKey ==> r == HandleSendMessage(text, roomId)
    ensures key != "Enter" || shiftKey ==> r == SendOutcome(text, None)
  {
    if key == "Enter" && !shiftKey then HandleSendMessage(text, roomId) else SendOutcome(text, None)
  }

  /** The Send button (`disabled={!newMessage.trim()}`) is enabled when the
      trimmed text is non-empty, that is when the text has a character that
      is not whitespace. */
  function SendEnabled(text: string): (enabled: bool)
    ensures enabled <==> exists i :: 0 <= i < |text| && !IsSpace(text[i])
  {
    !IsBlank(text)
  }

  /** The form's submission (`<form onSubmit={handleSendMessage}>` with a
      `type="submit"` Send button): implicit submission clicks the button,
      which does nothing while the button is disabled. */
  function FormSubmit(text: string, roomId: RoomId): (r: SendOutcome)
    ensures r.emitted.Some? <==> SendEnabled(text)
    ensures r.emitted.Some? ==> r.emitted.value == SendMessage(roomId, text) && r.text == ""
    ensures r.emitted.None? ==> r.text == text
  {
    if SendEnabled(text) then HandleSendMessage(text, roomId) else SendOutcome(text, None)
  }

  /** A key pressed in the composer's input, as the page handles it: the key
      handler runs first, and an Enter it does not prevent (Shift+Enter)
      falls through to the form's implicit submission. So Enter sends the
      same way with or without Shift, and no other key sends. */
  function InputKeyPress(key: string, shiftKey: bool, text: string, roomId: RoomId): (r: SendOutcome)
    ensures key == "Enter" ==> r == HandleSendMessage(text, roomId)
    ensures key != "Enter" ==> r == SendOutcome(text, None)
    ensures r.emitted.Some? <==> key == "Enter" && exists i :: 0 <= i < |text| && !IsSpace(text[i])
  {
    if key == "Enter" && shiftKey then FormSubmit(text, roomId)
    else HandleKeyPress(key, shiftKey, text, roomId)
  }

  /** The button and the handler agree: the button is enabled exactly when
      pressing it would send. */
  lemma SendEnabledIffSends(text: string, roomId: RoomId)
    ensures SendEnabled(text) <==> HandleSendMessage(text, roomId).emitted.Some?
  {
  }

  /** What the composer sends always has a visible character, and no send
      ever leaves text behind. */
  lemma SentTextIsVisible(text: string, roomId: RoomId)
    ensures HandleSendMessage(text, roomId).emitted.Some? ==>
      && (exists i :: 0 <= i < |text| && !IsSpace(text[i]))
      && HandleSendMessage(text, roomId).text == ""
  {
  }

  /** A send followed at once by a second Enter press emits nothing more:
      the cleared input is blank. */
  lemma NoDoubleSend(text: string, roomId: RoomId)
    ensures var first := HandleSendMessage(text, roomId);
            first.emitted.Some? ==> HandleKeyPress("Enter", false, first.text, roomId).emitted.None?
  {
    assert AllSpace("");
  }

  /** The room-change effect: `joinRoom(currentRoom.id)` when the id is truthy. */
  function RoomChangeJoin(currentRoomId: Option<RoomId>): (r: seq<ClientEvent>)
    ensures |r| <= 1
    ensures r != [] <==> Truthy(currentRoomId)
    ensures r != [] ==> r[0] == JoinRoom(currentRoomId.value)
  {
    if Truthy(currentRoomId) then [JoinRoom(currentRoomId.value)] else []
  }
}

=== FILE: end_to_end.dfy ===
/** The client and the server together: a signed-in user connects, the
    `connect` listener joins the displayed room, the composer sends, the
    server relays, and the `receive_message` listener adds the echo. */
module EndToEnd {
  import opened Protocol
  import opened Text
  import opened SocketServer
  import opened RoomState
  import opened ClientSocket
  import opened Composer

  /** With the identity taken from the handshake, a user's own message comes
      back attributed to the user, marked as their own, with the text exactly
      as typed. The effect has attached one `receive_message` listener and the
      client adds no local copy, so the message is shown once (until the
      effect re-runs, see `ClientSocket.DuplicateAfterRerun`). */
  lemma OwnMessageEchoedOnce(s0: Server, c: ConnId, u: User, room: Room, text: string, k1: Clock, k2: Clock)
    requires c !in s0.sessions
    requires room.id != 0
    requires !AllSpace(text)
    ensures
      var sock := OnConnected(ConnectEffect(Idle, Some(u)).sock, Some(room.id));
      var s1 := Admit(s0, c, sock.auth);
      var joined := Handle(s1, c, sock.outbox[0], k1).server;
      var typed := HandleSendMessage(text, room.id);
      && sock.outbox == [JoinRoom(room.id)]
      && typed.emitted == Some(SendMessage(room.id, text)) && typed.text == ""
      && var sent := EmitSendMessage(sock, room.id, text);
      && sent.outbox == [JoinRoom(room.id), SendMessage(room.id, text)]
      && sent.listeners.Count(MessageListener) == 1
      && var relay := Handle(joined, c, sent.outbox[1], k1).out.value;
      && c in relay.recipients
      && relay.event.ReceiveMessage?
      && var shown := Dispatch(room, sent, u, relay.event.data, [k2]);
      && |shown.messages| == |room.messages| + 1
      && shown.messages[|room.messages|].message == text
      && shown.messages[|room.messages|].user == DisplayName(Some(Auth(u.username, u.id)))
      && shown.messages[|room.messages|].isOwn
  {
  }

  /** As written the handlers read an identity nothing assigns: whatever the
      client presented, its own message comes back as "Anonymous" and is
      not marked as its own. */
  lemma AsWrittenEchoIsAnonymous(s0: Server, c: ConnId, u: User, room: Room, text: string, k1: Clock, k2: Clock)
    requires c !in s0.sessions
    requires room.id != 0
    requires !AllSpace(text)
    ensures
      var sock := OnConnected(ConnectEffect(Idle, Some(u)).sock, Some(room.id));
      var s1 := AdmitAsWritten(s0, c, sock.auth);
      var joined := Handle(s1, c, sock.outbox[0], k1).server;
      var typed := HandleSendMessage(text, room.id);
      && sock.auth == Some(Auth(u.username, u.id))
      && typed.emitted == Some(SendMessage(room.id, text))
      && var sent := EmitSendMessage(sock, room.id, text);
      && sent.listeners.Count(MessageListener) == 1
      && var relay := Handle(joined, c, sent.outbox[1], k1).out.value;
      && c in relay.recipients
      && relay.event.ReceiveMessage?
      && var shown := Dispatch(room, sent, u, relay.event.data, [k2]);
      && |shown.messages| == |room.messages| + 1
      && shown.messages[|room.messages|].user == "Anonymous"
      && !shown.messages[|room.messages|].isOwn
  {
  }

  /** Another member of the room receives the message attributed to the
      sender's connection, and marks it as its own exactly when that
      identity carries its own user id. With no identity on the connection,
      as the code is written, it is "Anonymous" and nobody's own. */
  lemma OthersSeeSender(s: Server, c: ConnId, d: ConnId, v: User, r: RoomId, text: string, k: Clock)
    requires c in s.sessions
    requires d in MembersOf(s, r)
    ensures var relay := OnSendMessage(s, c, r, text, k).out.value;
      var m := MarkOwn(v, relay.event.data);
      && d in relay.recipients
      && m.user == DisplayName(s.sessions[c])
      && m.message == text
      && (m.isOwn <==> UserIdOf(s.sessions[c]) == Some(v.id))
    ensures s.sessions[c].None? ==>
      var m := MarkOwn(v, OnSendMessage(s, c, r, text, k).out.value.event.data);
      m.user == "Anonymous" && !m.isOwn
  {
  }

  /** What each client emitter queues is what the matching server handler
      acts on: the room joined, the text relayed and the typing flag
      forwarded are the ones the client passed, each to the handler's
      audience. */
  lemma EmittersReachHandlers(sock: Sock, s: Server, c: ConnId, r: RoomId, text: string, t: bool, k: Clock)
    requires c in s.sessions
    ensures var ev := EmitJoinRoom(sock, r).outbox[|sock.outbox|];
      c in MembersOf(Handle(s, c, ev, k).server, r)
    ensures var ev := EmitSendMessage(sock, r, text).outbox[|sock.outbox|];
      var out := Handle(s, c, ev, k).out.value;
      out.recipients == MembersOf(s, r) && out.event.data.message == text
    ensures var ev := EmitTyping(sock, r, t).outbox[|sock.outbox|];
      var out := Handle(s, c, ev, k).out.value;
      out.recipients == MembersOf(s, r) - {c} && out.event == UserTyping(UsernameOf(s.sessions[c]), t)
  {
  }
}

=== FILE: protocol.dfy ===
/** The vocabulary shared by the browser client and the relay server: the
    identity a connection presents, the chat message record, and the events
    each side emits over the real-time channel. */
module Protocol {

  /** A JavaScript value that may be `undefined` or `null`. */
  datatype Option<+T> = None | Some(value: T)

  type UserId = string
  type ConnId = string
  type RoomId = int

  /** JavaScript truthiness of an optional room id (`currentRoom?.id`):
      false for a missing room and for the id 0. */
  predicate Truthy(id: Option<RoomId>) {
    id.Some? && id.value != 0
  }

  /** The `{ username, userId }` object a client attaches before connecting. */
  datatype Auth = Auth(username: string, userId: UserId)

  /** The two readings of the wall clock a handler takes: `Date.now()` and
      the `hh:mm` string `toLocaleTimeString` renders. */
  datatype Clock = Clock(now: int, localTime: string)

  /** A chat message as it travels and as the client stores it. The seeded
      history carries no `userId`. */
  datatype ChatMessage = ChatMessage(
    id: int,
    user: string,
    message: string,
    timestamp: string,
    userId: Option<UserId>,
    isOwn: bool)

  /** Client-to-server events: `join_room` with the bare room id,
      `send_message` with `{ roomId, message }`, `typing` with `{ roomId, isTyping }`. */
  datatype ClientEvent =
    | JoinRoom(roomId: RoomId)
    | SendMessage(roomId: RoomId, message: string)
    | Typing(roomId: RoomId, isTyping: bool)

  /** Server-to-client events: `user_joined`, `receive_message`, `user_typing`. */
  datatype ServerEvent =
    | UserJoined(userId: Option<UserId>, username: Option<string>)
    | ReceiveMessage(data: ChatMessage)
    | UserTyping(username: Option<string>, isTyping: bool)
}

=== FILE: relay.dfy ===
/** The server over time: a world is the handler state, the set of
    connections still open, and for every connection the events delivered to
    it so far, in delivery order. Each input (a connection, an event from a
    connected client, a disconnect) is handled as one atomic step, as Node's
    event loop runs one handler at a time. A world fixes which identity the
    handlers see (`Admission`): the code as written, or the handshake's. */
module Relay {
  import opened Protocol
  import opened SocketServer

  datatype World = World(
    admission: Admission,
    server: Server,
    live: set<ConnId>,
    inbox: map<ConnId, seq<ServerEvent>>)

  datatype Input =
    | Connect(conn: ConnId, handshake: Option<Auth>)
    | Emit(conn: ConnId, event: ClientEvent, clock: Clock)
    | Disconnect(conn: ConnId)

  /** A server that has seen no connection yet. */
  function Start(a: Admission): World {
    World(a, Fresh, {}, map[])
  }

  /** Every open connection was admitted, and only open connections are in
      rooms. */
  ghost predicate Consistent(w: World) {
    && w.live <= w.server.sessions.Keys
    && forall q :: MembersOf(w.server, q) <= w.live
  }

  /** The events delivered to `c` so far. */
  function Received(inbox: map<ConnId, seq<ServerEvent>>, c: ConnId): seq<ServerEvent> {
    if c in inbox then inbox[c] else []
  }

  /** Appends a broadcast's event to each recipient's inbox, once. */
  function Deliver(inbox: map<ConnId, seq<ServerEvent>>, b: Option<Broadcast>): (r: map<ConnId, seq<ServerEvent>>)
    ensures forall c ::
      Received(r, c) == Received(inbox, c) + (if b.Some? && c in b.value.recipients then [b.value.event] else [])
  {
    if b.None? then inbox
    else
      map c | c in inbox.Keys + b.value.recipients ::
        Received(inbox, c) + (if c in b.value.recipients then [b.value.event] else [])
  }

  /** One input. A new connection is admitted with the identity the world's
      admission gives it. Events reach the handlers only from open
      connections. A disconnect runs the (logging) handler, and Socket.IO
      takes the connection out of every room. Socket.IO never reuses a
      socket id, so a second connection under a used id changes nothing. */
  function Step(w: World, i: Input): (r: World)
    ensures r.admission == w.admission
    ensures w.server.sessions.Keys <= r.server.sessions.Keys
    ensures forall d :: d in w.server.sessions ==> r.server.sessions[d] == w.server.sessions[d]
    ensures forall d :: d in w.server.sessions && d !in w.live ==> d !in r.live
    ensures forall q :: MembersOf(w.server, q) * r.live <= MembersOf(r.server, q)
    ensures i.Connect? && i.conn !in w.server.sessions ==>
      i.conn in r.live && i.conn in r.server.sessions && r.server.sessions[i.conn] == Identity(w.admission, i.handshake)
    ensures (i.Connect? && i.conn in w.server.sessions) || (!i.Connect? && i.conn !in w.live) ==> r == w
    ensures Consistent(w) ==> Consistent(r)
    ensures Consistent(w) && i.Disconnect? ==> i.conn !in r.live
    ensures Consistent(w) ==> forall d :: d !in w.live ==> Received(r.inbox, d) == Received(w.inbox, d)
  {
    match i
    case Connect(c, h) =>
      if c in w.server.sessions then w
      else w.(server := AdmitBy(w.admission, w.server, c, h), live := w.live + {c})
    case Emit(c, ev, k) =>
      if c !in w.live || c !in w.server.sessions then w
      else
        var x := Handle(w.server, c, ev, k);
        w.(server := x.server, inbox := Deliver(w.inbox, x.out))
    case Disconnect(c) =>
      if c !in w.live || c !in w.server.sessions then w
      else w.(server := LeaveAll(OnDisconnect(w.server, c).server, c), live := w.live - {c})
  }

  function Run(w: World, inputs: seq<Input>): World
    decreases |inputs|
  {
    if inputs == [] then w else Run(Step(w, inputs[0]), inputs[1..])
  }

  /** Running a concatenation is running its halves in turn. */
  lemma {:induction false} RunAppend(w: World, a: seq<Input>, b: seq<Input>)
    ensures Run(w, a + b) == Run(Run(w, a), b)
    decreases |a|
  {
    if a != [] {
      assert (a + b)[0] == a[0];
      assert (a + b)[1..] == a[1..] + b;
      RunAppend(Step(w, a[0]), a[1..], b);
    } else {
      assert a + b == b;
    }
  }

  /** Two inputs run one after the other. */
  lemma RunTwo(w: World, a: Input, b: Input)
    ensures Run(w, [a, b]) == Step(Step(w, a), b)
  {
    assert [a, b][1..] == [b];
    assert [b][1..] == [];
    assert Run(w, [a, b]) == Run(Step(w, a), [b]);
  }

  /** Three inputs run one after the other. */
  lemma RunThree(w: World, a: Input, b: Input, c: Input)
    ensures Run(w, [a, b, c]) == Step(Step(Step(w, a), b), c)
  {
    assert [a, b, c][1..] == [b, c];
    assert [b, c][1..] == [c];
    assert [c][1..] == [];
    assert Run(w, [a, b, c]) == Run(Step(w, a), [b, c]);
    assert Run(Step(w, a), [b, c]) == Run(Step(Step(w, a), b), [c]);
  }

  /** Over any run, every open connection was admitted and only open
      connections are room members. */
  lemma {:induction false} RunKeepsConsistent(w: World, inputs: seq<Input>)
    requires Consistent(w)
    ensures Consistent(Run(w, inputs))
    decreases |inputs|
  {
    if inputs != [] {
      RunKeepsConsistent(Step(w, inputs[0]), inputs[1..]);
    }
  }

  /** Once closed, a connection stays closed: its id stays taken and it is
      never open again. */
  lemma {:induction false} ClosedStaysClosed(w: World, inputs: seq<Input>, d: ConnId)
    requires d in w.server.sessions && d !in w.live
    ensures var w' := Run(w, inputs); d in w'.server.sessions && d !in w'.live
    decreases |inputs|
  {
    if inputs != [] {
      ClosedStaysClosed(Step(w, inputs[0]), inputs[1..], d);
    }
  }

  /** Delivery is append-only: what a connection has received stays a prefix
      of everything it will have received. */
  lemma {:induction false} InboxOnlyGrows(w: World, inputs: seq<Input>, c: ConnId)
    ensures var later := Received(Run(w, inputs).inbox, c);
            |Received(w.inbox, c)| <= |later| && later[..|Received(w.inbox, c)|] == Received(w.inbox, c)
    decreases |inputs|
  {
    if inputs != [] {
      var w' := Step(w, inputs[0]);
      assert Received(w'.inbox, c)[..|Received(w.inbox, c)|] == Received(w.inbox, c);
      InboxOnlyGrows(w', inputs[1..], c);
    }
  }

  /** No handler removes a membership: a connection leaves a room only by
      disconnecting, so every member that is still open at the end of a run
      is still a member. */
  lemma {:induction false} MembershipOnlyGrows(w: World, inputs: seq<Input>, r: RoomId)
    requires Consistent(w)
    ensures var w' := Run(w, inputs); MembersOf(w.server, r) * w'.live <= MembersOf(w'.server, r)
    decreases |inputs|
  {
    if inputs != [] {
      var w1 := Step(w, inputs[0]);
      var w' := Run(w1, inputs[1..]);
      MembershipOnlyGrows(w1, inputs[1..], r);
      forall d | d in MembersOf(w.server, r) && d in w'.live
        ensures d in MembersOf(w1.server, r)
      {
        if d !in w1.live {
          ClosedStaysClosed(w1, inputs[1..], d);
        }
      }
    }
  }

  /** A closed connection receives nothing more, whatever happens later. */
  lemma {:induction false} ClosedReceivesNothing(w: World, inputs: seq<Input>, d: ConnId)
    requires Consistent(w)
    requires d in w.server.sessions && d !in w.live
    ensures Received(Run(w, inputs).inbox, d) == Received(w.inbox, d)
    decreases |inputs|
  {
    if inputs != [] {
      ClosedReceivesNothing(Step(w, inputs[0]), inputs[1..], d);
    }
  }

  /** After a connection disconnects, its inbox never changes again. */
  lemma DisconnectEndsDelivery(w: World, c: ConnId, inputs: seq<Input>)
    requires Consistent(w) && c in w.live
    ensures Received(Run(w, [Disconnect(c)] + inputs).inbox, c) == Received(w.inbox, c)
  {
    var w1 := Step(w, Disconnect(c));
    RunAppend(w, [Disconnect(c)], inputs);
    assert [Disconnect(c)][1..] == [];
    assert Run(w, [Disconnect(c)]) == w1;
    ClosedReceivesNothing(w1, inputs, c);
  }

  /** The relay is the ordering authority of a room: two messages sent one
      after the other reach every member of the room in that order, directly
      after whatever it had received before. */
  lemma RelayPreservesOrder(w: World, a: ConnId, b: ConnId, r: RoomId, m1: string, m2: string, k1: Clock, k2: Clock, member: ConnId)
    requires a in w.live && a in w.server.sessions && b in w.live && b in w.server.sessions
    requires member in MembersOf(w.server, r)
    ensures var w2 := Run(w, [Emit(a, SendMessage(r, m1), k1), Emit(b, SendMessage(r, m2), k2)]);
            var got := Received(w2.inbox, member);
            && |got| == |Received(w.inbox, member)| + 2
            && got[..|Received(w.inbox, member)|] == Received(w.inbox, member)
            && got[|got| - 2].ReceiveMessage? && got[|got| - 2].data.message == m1
            && got[|got| - 1].ReceiveMessage? && got[|got| - 1].data.message == m2
  {
    var e1 := Emit(a, SendMessage(r, m1), k1);
    var e2 := Emit(b, SendMessage(r, m2), k2);
    var w1 := Step(w, e1);
    var w2 := Step(w1, e2);
    RunTwo(w, e1, e2);
    SendStep(w, a, r, m1, k1);
    SendStep(w1, b, r, m2, k2);
    var before := Received(w.inbox, member);
    var sa, sb := w.server.sessions[a], w.server.sessions[b];
    var r1 := ReceiveMessage(ChatMessage(k1.now, DisplayName(sa), m1, k1.localTime, UserIdOf(sa), false));
    var r2 := ReceiveMessage(ChatMessage(k2.now, DisplayName(sb), m2, k2.localTime, UserIdOf(sb), false));
    assert Received(w1.inbox, member) == before + [r1];
    AppendedTwo(before, Received(w1.inbox, member), Received(w2.inbox, member), r1, r2);
  }

  /** Two appends in turn leave the old contents as a prefix and the two new
      events, in order, at the end. */
  lemma AppendedTwo(before: seq<ServerEvent>, mid: seq<ServerEvent>, after: seq<ServerEvent>, x: ServerEvent, y: ServerEvent)
    requires mid == before + [x] && after == mid + [y]
    ensures |after| == |before| + 2 && after[..|before|] == before
    ensures after[|after| - 2] == x && after[|after| - 1] == y
  {
  }

  /** A typing signal never comes back to the connection that sent it. */
  lemma NoTypingEcho(w: World, c: ConnId, r: RoomId, t: bool, k: Clock)
    ensures Received(Step(w, Emit(c, Typing(r, t), k)).inbox, c) == Received(w.inbox, c)
  {
  }

  /** A join as one step: the joiner enters the room, every earlier member
      other than the joiner receives the announcement, nobody else anything. */
  lemma JoinStep(w: World, c: ConnId, r: RoomId, k: Clock)
    requires c in w.live && c in w.server.sessions
    ensures var w' := Step(w, Emit(c, JoinRoom(r), k));
      && w'.server.sessions == w.server.sessions && w'.live == w.live
      && MembersOf(w'.server, r) == MembersOf(w.server, r) + {c}
      && forall d :: Received(w'.inbox, d) == Received(w.inbox, d)
           + (if d in MembersOf(w.server, r) - {c}
              then [UserJoined(UserIdOf(w.server.sessions[c]), UsernameOf(w.server.sessions[c]))] else [])
  {
  }

  /** A send as one step: every member of the room, the sender included if
      it is one, receives the record; membership does not change. */
  lemma SendStep(w: World, c: ConnId, r: RoomId, m: string, k: Clock)
    requires c in w.live && c in w.server.sessions
    ensures var w' := Step(w, Emit(c, SendMessage(r, m), k));
      var a := w.server.sessions[c];
      && w'.server == w.server && w'.live == w.live
      && forall d :: Received(w'.inbox, d) == Received(w.inbox, d)
           + (if d in MembersOf(w.server, r)
              then [ReceiveMessage(ChatMessage(k.now, DisplayName(a), m, k.localTime, UserIdOf(a), false))] else [])
  {
  }

  /** A typing signal as one step: every member other than the sender
      receives it; membership does not change. */
  lemma TypingStep(w: World, c: ConnId, r: RoomId, t: bool, k: Clock)
    requires c in w.live && c in w.server.sessions
    ensures var w' := Step(w, Emit(c, Typing(r, t), k));
      && w'.server == w.server && w'.live == w.live
      && forall d :: Received(w'.inbox, d) == Received(w.inbox, d)
           + (if d in MembersOf(w.server, r) - {c} then [UserTyping(UsernameOf(w.server.sessions[c]), t)] else [])
  {
  }

  /** The scenario: alice and bob connect, both join room 1, alice says
      "hello" and then starts typing. */
  const Alice := Some(Auth("alice", "id1"))
  const Bob := Some(Auth("bob", "id2"))

  function Setup(k: Clock): seq<Input> {
    [Connect("u1", Alice), Connect("u2", Bob), Emit("u1", JoinRoom(1), k)]
  }

  function Rest(k: Clock): seq<Input> {
    [Emit("u2", JoinRoom(1), k), Emit("u1", SendMessage(1, "hello"), k), Emit("u1", Typing(1, true), k)]
  }

  /** The record the relay builds for "hello" from a sender with identity `x`. */
  function Hello(k: Clock, x: Option<Auth>): ServerEvent {
    ReceiveMessage(ChatMessage(k.now, DisplayName(x), "hello", k.localTime, UserIdOf(x), false))
  }

  /** The world after both users have connected and the first has joined
      room 1, under either admission. */
  lemma ScenarioSetup(a: Admission, k: Clock)
    ensures var w := Run(Start(a), Setup(k));
      && w.server.sessions == map["u1" := Identity(a, Alice), "u2" := Identity(a, Bob)]
      && "u1" in w.live && "u2" in w.live
      && MembersOf(w.server, 1) == {"u1"}
      && Received(w.inbox, "u1") == [] && Received(w.inbox, "u2") == []
  {
    var i0, i1, i2 := Connect("u1", Alice), Connect("u2", Bob), Emit("u1", JoinRoom(1), k);
    var w1 := Step(Step(Start(a), i0), i1);
    assert w1.server.sessions == map["u1" := Identity(a, Alice), "u2" := Identity(a, Bob)];
    assert MembersOf(w1.server, 1) == {};
    JoinStep(w1, "u1", 1, k);
    RunThree(Start(a), i0, i1, i2);
  }

  lemma ScenarioJoin(w: World, k: Clock, x1: Option<Auth>, x2: Option<Auth>) returns (w3: World)
    requires w.server.sessions == map["u1" := x1, "u2" := x2] && "u1" in w.live && "u2" in w.live
    requires MembersOf(w.server, 1) == {"u1"}
    requires Received(w.inbox, "u1") == [] && Received(w.inbox, "u2") == []
    ensures w3 == Step(w, Emit("u2", JoinRoom(1), k))
    ensures w3.server.sessions == w.server.sessions && w3.live == w.live
    ensures MembersOf(w3.server, 1) == {"u1", "u2"}
    ensures Received(w3.inbox, "u1") == [UserJoined(UserIdOf(x2), UsernameOf(x2))] && Received(w3.inbox, "u2") == []
  {
    assert "u1" != "u2";
    JoinStep(w, "u2", 1, k);
    w3 := Step(w, Emit("u2", JoinRoom(1), k));
  }

  lemma ScenarioSend(w3: World, k: Clock, x1: Option<Auth>, x2: Option<Auth>) returns (w4: World)
    requires w3.server.sessions == map["u1" := x1, "u2" := x2] && "u1" in w3.live && "u2" in w3.live
    requires MembersOf(w3.server, 1) == {"u1", "u2"}
    requires Received(w3.inbox, "u1") == [UserJoined(UserIdOf(x2), UsernameOf(x2))] && Received(w3.inbox, "u2") == []
    ensures w4 == Step(w3, Emit("u1", SendMessage(1, "hello"), k)) && w4.server == w3.server && w4.live == w3.live
    ensures Received(w4.inbox, "u1") == [UserJoined(UserIdOf(x2), UsernameOf(x2)), Hello(k, x1)]
    ensures Received(w4.inbox, "u2") == [Hello(k, x1)]
  {
    SendStep(w3, "u1", 1, "hello", k);
    w4 := Step(w3, Emit("u1", SendMessage(1, "hello"), k));
  }

  lemma ScenarioTyping(w4: World, k: Clock, x1: Option<Auth>, x2: Option<Auth>)
    requires w4.server.sessions == map["u1" := x1, "u2" := x2] && "u1" in w4.live && "u2" in w4.live
    requires MembersOf(w4.server, 1) == {"u1", "u2"}
    ensures var w5 := Step(w4, Emit("u1", Typing(1, true), k));
      && Received(w5.inbox, "u1") == Received(w4.inbox, "u1")
      && Received(w5.inbox, "u2") == Received(w4.inbox, "u2") + [UserTyping(UsernameOf(x1), true)]
  {
    assert "u1" != "u2";
    TypingStep(w4, "u1", 1, true, k);
  }

  /** The scenario from its setup on, for any identities the two
      connections carry. */
  lemma ScenarioAfterSetup(w: World, k: Clock, x1: Option<Auth>, x2: Option<Auth>)
    requires w.server.sessions == map["u1" := x1, "u2" := x2] && "u1" in w.live && "u2" in w.live
    requires MembersOf(w.server, 1) == {"u1"}
    requires Received(w.inbox, "u1") == [] && Received(w.inbox, "u2") == []
    ensures var w' := Run(w, Rest(k));
      && Received(w'.inbox, "u2") == [Hello(k, x1), UserTyping(UsernameOf(x1), true)]
      && Received(w'.inbox, "u1") == [UserJoined(UserIdOf(x2), UsernameOf(x2)), Hello(k, x1)]
  {
    var e3, e4, e5 := Emit("u2", JoinRoom(1), k), Emit("u1", SendMessage(1, "hello"), k), Emit("u1", Typing(1, true), k);
    RunThree(w, e3, e4, e5);
    var w3 := ScenarioJoin(w, k, x1, x2);
    var w4 := ScenarioSend(w3, k, x1, x2);
    ScenarioTyping(w4, k, x1, x2);
  }

  /** The whole scenario under admission `a`: bob receives the message and
      then the typing signal, both attributed to the identity alice's
      connection carries; alice receives bob's join, announced with the
      identity his connection carries, and her own echo, but no typing echo. */
  lemma HelloRun(a: Admission, k: Clock)
    ensures var w := Run(Start(a), Setup(k) + Rest(k));
      var x1, x2 := Identity(a, Alice), Identity(a, Bob);
      && Received(w.inbox, "u2") == [Hello(k, x1), UserTyping(UsernameOf(x1), true)]
      && Received(w.inbox, "u1") == [UserJoined(UserIdOf(x2), UsernameOf(x2)), Hello(k, x1)]
  {
    ScenarioSetup(a, k);
    RunAppend(Start(a), Setup(k), Rest(k));
    ScenarioAfterSetup(Run(Start(a), Setup(k)), k, Identity(a, Alice), Identity(a, Bob));
  }

  /** As written, the scenario loses every identity: bob sees "Anonymous"
      with no user id say "hello" and an unnamed user typing, and alice sees
      an unnamed user join and her own message as "Anonymous". */
  lemma HelloScenarioAsWritten(k: Clock)
    ensures var w := Run(Start(AsWritten), Setup(k) + Rest(k));
      var anonymous := ReceiveMessage(ChatMessage(k.now, "Anonymous", "hello", k.localTime, None, false));
      && Received(w.inbox, "u2") == [anonymous, UserTyping(None, true)]
      && Received(w.inbox, "u1") == [UserJoined(None, None), anonymous]
  {
    HelloRun(AsWritten, k);
  }

  /** With the handshake's identity, bob receives the message as alice's,
      then her typing signal; alice receives bob's join and her own echo. */
  lemma HelloScenario(k: Clock)
    ensures var w := Run(Start(FromHandshake), Setup(k) + Rest(k));
      var hello := ReceiveMessage(ChatMessage(k.now, "alice", "hello", k.localTime, Some("id1"), false));
      && Received(w.inbox, "u2") == [hello, UserTyping(Some("alice"), true)]
      && Received(w.inbox, "u1") == [UserJoined(Some("id2"), Some("bob")), hello]
  {
    HelloRun(FromHandshake, k);
  }
}

=== FILE: room_state.dfy ===
/** The client's view of the displayed room (`RoomProvider`): the current
    room, the fixed catalog of mock rooms, `switchRoom` and `addMessage`. */
module RoomState {
  import opened Protocol

  datatype Room = Room(id: RoomId, name: string, messages: seq<ChatMessage>)

  /** A seeded history entry; the mock data carries no `userId`. */
  function Seeded(id: int, user: string, message: string, timestamp: string, isOwn: bool): ChatMessage {
    ChatMessage(id, user, message, timestamp, None, isOwn)
  }

  /** The `rooms` catalog, keyed by room id. */
  const Catalog: map<RoomId, Room> := map[
    1 := Room(1, "General", [
      Seeded(1, "John", "Hey everyone!", "10:30 AM", false),
      Seeded(2, "You", "Hello! How is everyone doing?", "10:32 AM", true),
      Seeded(3, "Sarah", "Great! Working on some new features", "10:35 AM", false)]),
    2 := Room(2, "Random", [
      Seeded(4, "Mike", "Anyone up for a game?", "11:00 AM", false),
      Seeded(5, "Emma", "Sure! What game?", "11:02 AM", false),
      Seeded(6, "You", "How about some trivia?", "11:05 AM", true)]),
    3 := Room(3, "Tech Talk", [
      Seeded(7, "Alex", "New React 19 features are amazing!", "12:00 PM", false),
      Seeded(8, "You", "Yes! The new compiler is a game changer", "12:02 PM", true),
      Seeded(9, "Lisa", "Can't wait to try the new hooks", "12:05 PM", false)])
  ]

  /** The state `currentRoom` starts in, written out separately from the catalog. */
  const Initial: Room := Room(1, "General", [
    Seeded(1, "John", "Hey everyone!", "10:30 AM", false),
    Seeded(2, "You", "Hello! How is everyone doing?", "10:32 AM", true),
    Seeded(3, "Sarah", "Great! Working on some new features", "10:35 AM", false)])

  /** The initial room is the catalog's room 1, three seeded messages in order. */
  lemma InitialIsGeneral()
    ensures Initial == Catalog[1]
    ensures Initial.id == 1 && Initial.name == "General" && |Initial.messages| == 3
    ensures forall i :: 0 <= i < 3 ==> Initial.messages[i].id == i + 1
  {
  }

  /** Each catalog entry is stored under its own id. */
  lemma CatalogKeysAreIds()
    ensures Catalog.Keys == {1, 2, 3}
    ensures forall k :: k in Catalog ==> Catalog[k].id == k
  {
  }

  /** `switchRoom(roomId)`: a catalog id selects that catalog room, with its
      seeded history; any other id leaves the current room as it is. */
  function SwitchRoom(cur: Room, id: RoomId): (r: Room)
    ensures id in {1, 2, 3} ==> r == Catalog[id] && r.id == id
    ensures id !in {1, 2, 3} ==> r == cur
  {
    if id in Catalog then Catalog[id] else cur
  }

  /** `addMessage(message)`: the message, with a fresh `id` and `timestamp`,
      goes at the end of the current room's list. */
  function AddMessage(cur: Room, m: ChatMessage, clock: Clock): (r: Room)
    ensures r.id == cur.id && r.name == cur.name
    ensures |r.messages| == |cur.messages| + 1
    ensures r.messages[..|cur.messages|] == cur.messages
    ensures var added := r.messages[|cur.messages|];
      && added.user == m.user && added.message == m.message
      && added.userId == m.userId && added.isOwn == m.isOwn
      && added.id == clock.now && added.timestamp == clock.localTime
  {
    cur.(messages := cur.messages + [m.(id := clock.now, timestamp := clock.localTime)])
  }

  /** Appends each message in turn, stamping the i-th with the i-th clock reading. */
  function AddAll(cur: Room, ms: seq<ChatMessage>, clocks: seq<Clock>): Room
    requires |ms| == |clocks|
    decreases |ms|
  {
    if ms == [] then cur else AddAll(AddMessage(cur, ms[0], clocks[0]), ms[1..], clocks[1..])
  }

  /** Messages appear in arrival order after the existing history, with only
      their id and timestamp replaced. */
  lemma {:induction false} AddAllInOrder(cur: Room, ms: seq<ChatMessage>, clocks: seq<Clock>)
    requires |ms| == |clocks|
    ensures var r := AddAll(cur, ms, clocks);
      && r.id == cur.id && r.name == cur.name
      && |r.messages| == |cur.messages| + |ms|
      && r.messages[..|cur.messages|] == cur.messages
      && forall i :: 0 <= i < |ms| ==>
           r.messages[|cur.messages| + i] == ms[i].(id := clocks[i].now, timestamp := clocks[i].localTime)
    decreases |ms|
  {
    if ms != [] {
      var next := AddMessage(cur, ms[0], clocks[0]);
      AddAllInOrder(next, ms[1..], clocks[1..]);
      var r := AddAll(cur, ms, clocks);
      assert r == AddAll(next, ms[1..], clocks[1..]);
      forall i | 0 <= i < |ms|
        ensures r.messages[|cur.messages| + i] == ms[i].(id := clocks[i].now, timestamp := clocks[i].localTime)
      {
        if i > 0 {
          assert r.messages[|next.messages| + (i - 1)] == ms[1..][i - 1].(id := clocks[1..][i - 1].now, timestamp := clocks[1..][i - 1].localTime);
        } else {
          assert r.messages[..|next.messages|] == next.messages;
          assert r.messages[|cur.messages|] == next.messages[|cur.messages|];
        }
      }
      assert r.messages[..|cur.messages|] == r.messages[..|next.messages|][..|cur.messages|];
    }
  }

  /** `addMessage` never writes to the catalog: after adding a message to a
      catalog room, switching anywhere and back shows the catalog's seeded
      history again, without the added message. */
  lemma SwitchAwayAndBack(k: RoomId, j: RoomId, m: ChatMessage, clock: Clock)
    requires k in {1, 2, 3}
    ensures var added := AddMessage(Catalog[k], m, clock);
      && |added.messages| == 4
      && SwitchRoom(SwitchRoom(added, j), k) == Catalog[k]
      && |SwitchRoom(SwitchRoom(added, j), k).messages| == 3
  {
  }
}

=== FILE: routes.dfy ===
/** The client's routing (`App.jsx`): the two guards, which decide on the
    authentication context's `(loading, user)` pair, and the route table. */
module Routes {

  datatype Page = LoginPage | RegisterPage | ChatLayout

  /** What a path renders: the loading view, a page, a redirect, or nothing
      (no route matches). */
  datatype Screen = Loading | Render(page: Page) | Redirect(to: string) | NoMatch

  /** `ProtectedRoute`: the loading view while loading, then the child for a
      signed-in user and a redirect to `/login` for anyone else. */
  function ProtectedRoute(loading: bool, hasUser: bool, child: Page): (s: Screen)
    ensures loading ==> s == Loading
    ensures !loading ==> (s == Render(child) <==> hasUser)
    ensures !loading && !hasUser ==> s == Redirect("/login")
  {
    if loading then Loading else if hasUser then Render(child) else Redirect("/login")
  }

  /** `PublicRoute`: the loading view while loading, then a redirect to
      `/chat` for a signed-in user and the child for anyone else. */
  function PublicRoute(loading: bool, hasUser: bool, child: Page): (s: Screen)
    ensures loading ==> s == Loading
    ensures !loading ==> (s == Redirect("/chat") <==> hasUser)
    ensures !loading && !hasUser ==> s == Render(child)
  {
    if loading then Loading else if hasUser then Redirect("/chat") else Render(child)
  }

  /** The `i` flag of a route's pattern, for the ASCII letters the routes
      are spelled with: upper-case ASCII letters compare as lower-case. */
  function Fold(c: char): char {
    if 'A' <= c <= 'Z' then (c as int + 32) as char else c
  }

  function Lower(s: string): (r: string)
    ensures |r| == |s| && forall i :: 0 <= i < |s| ==> r[i] == Fold(s[i])
  {
    seq(|s|, i requires 0 <= i < |s| => Fold(s[i]))
  }

  predicate AllSlash(s: string) {
    forall i :: 0 <= i < |s| ==> s[i] == '/'
  }

  /** Drops the trailing slashes of a path, keeping a lone leading one. */
  function StripSlashes(q: string): (r: string)
    ensures |r| <= |q| && r == q[..|r|] && AllSlash(q[|r|..])
    ensures |q| > 0 ==> |r| > 0
    ensures |r| > 1 ==> r[|r| - 1] != '/'
  {
    if |q| > 1 && q[|q| - 1] == '/' then
      var r := StripSlashes(q[..|q| - 1]);
      assert q[|r|..] == q[..|q| - 1][|r|..] + ['/'];
      r
    else
      q
  }

  /** The form in which the route table compares a path. */
  function Canonical(path: string): string {
    StripSlashes(Lower(path))
  }

  /** A route as the table spells it: a leading slash, lower-case, and no
      trailing slash unless it is `/` itself. */
  predicate RouteSpelling(route: string) {
    && |route| > 0 && route[0] == '/'
    && (|route| > 1 ==> route[|route| - 1] != '/')
    && forall i :: 0 <= i < |route| ==> Fold(route[i]) == route[i]
  }

  /** React Router's matching of a path against a route without
      `caseSensitive`: the route's pattern, case-insensitively, followed by
      any number of slashes. */
  predicate Matches(path: string, route: string) {
    && |route| <= |path|
    && (forall i :: 0 <= i < |route| ==> Fold(path[i]) == route[i])
    && (forall i :: |route| <= i < |path| ==> path[i] == '/')
  }

  /** Canonicalising a path and comparing exactly is the same as matching
      it the router's way. */
  lemma {:induction false} CanonicalIffMatches(path: string, route: string)
    requires RouteSpelling(route)
    ensures Canonical(path) == route <==> Matches(path, route)
  {
    var q := Lower(path);
    var r := StripSlashes(q);
    if r == route {
      forall i | |route| <= i < |path| ensures path[i] == '/' {
        assert q[|r|..][i - |r|] == '/';
      }
      forall i | 0 <= i < |route| ensures Fold(path[i]) == route[i] {
        assert q[..|r|][i] == q[i];
      }
    }
    if Matches(path, route) {
      StripsToRoute(path, q, r, route);
    }
  }

  lemma StripsToRoute(path: string, q: string, r: string, route: string)
    requires RouteSpelling(route) && Matches(path, route) && q == Lower(path)
    requires |r| <= |q| && r == q[..|r|] && AllSlash(q[|r|..])
    requires |q| > 0 ==> |r| > 0
    requires |r| > 1 ==> r[|r| - 1] != '/'
    ensures r == route
  {
    assert |r| == |route|;
    forall i | 0 <= i < |r| ensures r[i] == route[i] {
      assert r[i] == q[i];
    }
  }

  /** Each route of the table is its own canonical form. */
  lemma CanonicalRoutes()
    ensures Canonical("/login") == "/login" && Canonical("/register") == "/register"
    ensures Canonical("/chat") == "/chat" && Canonical("/") == "/"
  {
    forall route | route in ["/login", "/register", "/chat", "/"] ensures Canonical(route) == route {
      assert RouteSpelling(route);
      CanonicalIffMatches(route, route);
    }
  }

  /** Case variants and trailing slashes reach the same route. */
  lemma VariantsMatch()
    ensures Canonical("/CHAT/") == "/chat"
  {
    assert RouteSpelling("/chat");
    assert Matches("/CHAT/", "/chat");
    CanonicalIffMatches("/CHAT/", "/chat");
  }

  /** `AppRoutes`: `/login` and `/register` are public, `/chat` is protected,
      `/` always redirects to `/chat`. A path is compared in its canonical
      form, as the router matches it. */
  function Resolve(path: string, loading: bool, hasUser: bool): (s: Screen)
    ensures s == NoMatch <==> Canonical(path) !in {"/login", "/register", "/chat", "/"}
    ensures s == Loading <==> loading && Canonical(path) in {"/login", "/register", "/chat"}
    ensures Canonical(path) == "/" ==> s == Redirect("/chat")
    ensures s.Redirect? ==> s.to in {"/chat", "/login"}
    ensures s.Render? ==> !loading && (s.page == ChatLayout <==> hasUser)
  {
    var p := Canonical(path);
    if p == "/login" then PublicRoute(loading, hasUser, LoginPage)
    else if p == "/register" then PublicRoute(loading, hasUser, RegisterPage)
    else if p == "/chat" then ProtectedRoute(loading, hasUser, ChatLayout)
    else if p == "/" then Redirect("/chat")
    else NoMatch
  }

  /** The chat layout renders only on a path the router matches to `/chat`,
      only once loading has finished, and only for a signed-in user; the
      forms render only for anyone else. */
  lemma ChatNeedsUser(path: string, loading: bool, hasUser: bool)
    ensures Resolve(path, loading, hasUser) == Render(ChatLayout) <==> Matches(path, "/chat") && !loading && hasUser
    ensures Resolve(path, loading, hasUser) == Render(LoginPage) <==> Matches(path, "/login") && !loading && !hasUser
    ensures Resolve(path, loading, hasUser) == Render(RegisterPage) <==> Matches(path, "/register") && !loading && !hasUser
  {
    assert RouteSpelling("/chat") && RouteSpelling("/login") && RouteSpelling("/register");
    CanonicalIffMatches(path, "/chat");
    CanonicalIffMatches(path, "/login");
    CanonicalIffMatches(path, "/register");
  }

  /** Follows redirects for at most `hops` steps. */
  function Follow(path: string, loading: bool, hasUser: bool, hops: nat): Screen
    decreases hops
  {
    var s := Resolve(path, loading, hasUser);
    if s.Redirect? && hops > 0 then Follow(s.to, loading, hasUser, hops - 1) else s
  }

  /** The guards never send a browser round in circles: from any path at
      most two redirects reach a screen that is not a redirect, and which
      one depends only on `(loading, user)` for the routed paths. */
  lemma {:induction false} RedirectsSettle(path: string, loading: bool, hasUser: bool)
    ensures !Follow(path, loading, hasUser, 2).Redirect?
    ensures Canonical(path) in {"/", "/login", "/register", "/chat"} ==>
      && (loading ==> Follow(path, loading, hasUser, 2) == Loading)
      && (!loading && hasUser ==> Follow(path, loading, hasUser, 2) == Render(ChatLayout))
      && (!loading && !hasUser && Canonical(path) != "/register" ==> Follow(path, loading, hasUser, 2) == Render(LoginPage))
  {
    CanonicalRoutes();
    var s := Resolve(path, loading, hasUser);
    if s.Redirect? {
      var s2 := Resolve(s.to, loading, hasUser);
      assert s.to in {"/chat", "/login"};
      if s2.Redirect? {
        assert Resolve(s2.to, loading, hasUser) == Follow(s2.to, loading, hasUser, 0);
      }
    }
  }
}

=== FILE: socket_server.dfy ===
/** The server's real-time handlers (`io.on('connection', ...)`): room
    membership, message relay and typing fan-out. Socket.IO's rooms are
    modelled as a map from room id to the set of member connections; each
    admitted connection carries the identity the handlers read from it. */
module SocketServer {
  import opened Protocol

  datatype Server = Server(
    sessions: map<ConnId, Option<Auth>>,
    rooms: map<RoomId, set<ConnId>>)

  /** One `emit` to a set of connections. */
  datatype Broadcast = Broadcast(recipients: set<ConnId>, event: ServerEvent)

  /** What a handler leaves behind: the new state and at most one broadcast. */
  datatype Reaction = Reaction(server: Server, out: Option<Broadcast>)

  const Fresh := Server(map[], map[])

  /** The connections Socket.IO would address with `to(r)`. */
  function MembersOf(s: Server, r: RoomId): set<ConnId> {
    if r in s.rooms then s.rooms[r] else {}
  }

  /** Every membership edge references an admitted connection. */
  predicate Valid(s: Server) {
    forall r :: r in s.rooms ==> s.rooms[r] <= s.sessions.Keys
  }

  /** `socket.auth?.username`. */
  function UsernameOf(a: Option<Auth>): Option<string> {
    if a.Some? then Some(a.value.username) else None
  }

  /** `socket.auth?.userId`. */
  function UserIdOf(a: Option<Auth>): Option<UserId> {
    if a.Some? then Some(a.value.userId) else None
  }

  /** `socket.auth?.username || 'Anonymous'`: the empty string is falsy too. */
  function DisplayName(a: Option<Auth>): (name: string)
    ensures a.Some? && a.value.username != "" ==> name == a.value.username
    ensures a.None? || a.value.username == "" ==> name == "Anonymous"
    ensures name != ""
  {
    if a.Some? && a.value.username != "" then a.value.username else "Anonymous"
  }

  /** A new connection as the handlers actually see it. Nothing in the server
      assigns `socket.auth`, and Socket.IO keeps the client's `auth` object
      under `socket.handshake.auth`, so the identity read by every handler is
      undefined whatever the client presented. */
  function AdmitAsWritten(s: Server, c: ConnId, handshake: Option<Auth>): (r: Server)
    requires c !in s.sessions
    ensures r.sessions.Keys == s.sessions.Keys + {c}
    ensures r.sessions[c] == None
    ensures r.rooms == s.rooms
    ensures Valid(s) ==> Valid(r)
  {
    s.(sessions := s.sessions[c := None])
  }

  /** A new connection whose identity is the auth object the client sent
      with its handshake; it starts in no room. */
  function Admit(s: Server, c: ConnId, handshake: Option<Auth>): (r: Server)
    requires c !in s.sessions
    ensures r.sessions.Keys == s.sessions.Keys + {c}
    ensures r.sessions[c] == handshake
    ensures forall d :: d in s.sessions ==> r.sessions[d] == s.sessions[d]
    ensures r.rooms == s.rooms
    ensures Valid(s) ==> forall q :: c !in MembersOf(r, q)
    ensures Valid(s) ==> Valid(r)
  {
    s.(sessions := s.sessions[c := handshake])
  }

  /** Which identity the handlers see for a new connection: the one the code
      as written reads (`socket.auth`, never assigned), or the one the client
      sent with its handshake. */
  datatype Admission = AsWritten | FromHandshake

  /** The identity a connection admitted under `a` carries. */
  function Identity(a: Admission, handshake: Option<Auth>): Option<Auth> {
    if a.AsWritten? then None else handshake
  }

  /** Admission under either reading. */
  function AdmitBy(a: Admission, s: Server, c: ConnId, handshake: Option<Auth>): (r: Server)
    requires c !in s.sessions
    ensures r.sessions == s.sessions[c := Identity(a, handshake)]
    ensures r.rooms == s.rooms
  {
    if a.AsWritten? then AdmitAsWritten(s, c, handshake) else Admit(s, c, handshake)
  }

  /** Socket.IO's own cleanup when a connection closes: the connection
      leaves every room it was in. Nothing else changes. */
  function LeaveAll(s: Server, c: ConnId): (r: Server)
    ensures r.sessions == s.sessions
    ensures forall q :: MembersOf(r, q) == MembersOf(s, q) - {c}
    ensures Valid(s) ==> Valid(r)
  {
    s.(rooms := map q | q in s.rooms :: s.rooms[q] - {c})
  }

  /** `join_room`: `socket.join(roomId)`, then `socket.to(roomId)` announces
      the joining identity to the room's members other than the joiner. */
  function OnJoinRoom(s: Server, c: ConnId, r: RoomId): (x: Reaction)
    requires c in s.sessions
    ensures MembersOf(x.server, r) == MembersOf(s, r) + {c}
    ensures forall q :: q != r ==> MembersOf(x.server, q) == MembersOf(s, q)
    ensures x.server.sessions == s.sessions
    ensures x.out.Some?
    ensures x.out.value.recipients == MembersOf(s, r) - {c}
    ensures x.out.value.event
         == UserJoined(UserIdOf(s.sessions[c]), UsernameOf(s.sessions[c]))
    ensures Valid(s) ==> Valid(x.server)
  {
    var joined := s.(rooms := s.rooms[r := MembersOf(s, r) + {c}]);
    var a := s.sessions[c];
    Reaction(joined, Some(Broadcast(MembersOf(joined, r) - {c}, UserJoined(UserIdOf(a), UsernameOf(a)))))
  }

  /** `send_message`: builds the record from the connection's identity and
      the payload's text, then `io.to(roomId)` sends it to every member,
      the sender included. Neither membership nor the text is checked. */
  function OnSendMessage(s: Server, c: ConnId, roomId: RoomId, message: string, clock: Clock): (x: Reaction)
    requires c in s.sessions
    ensures x.server == s
    ensures x.out.Some? && x.out.value.event.ReceiveMessage?
    ensures x.out.value.recipients == MembersOf(s, roomId)
    ensures c in x.out.value.recipients <==> c in MembersOf(s, roomId)
    ensures var m := x.out.value.event.data;
      && m.message == message
      && m.user == DisplayName(s.sessions[c])
      && m.userId == UserIdOf(s.sessions[c])
      && !m.isOwn
      && m.id == clock.now
      && m.timestamp == clock.localTime
  {
    var a := s.sessions[c];
    var data := ChatMessage(clock.now, DisplayName(a), message, clock.localTime, UserIdOf(a), false);
    Reaction(s, Some(Broadcast(MembersOf(s, roomId), ReceiveMessage(data))))
  }

  /** `typing`: `socket.to(roomId)` forwards the flag, unchanged, with the
      connection's username to every other member of the room. */
  function OnTyping(s: Server, c: ConnId, roomId: RoomId, isTyping: bool): (x: Reaction)
    requires c in s.sessions
    ensures x.server == s
    ensures x.out.Some?
    ensures x.out.value.recipients == MembersOf(s, roomId) - {c}
    ensures c !in x.out.value.recipients
    ensures x.out.value.event == UserTyping(UsernameOf(s.sessions[c]), isTyping)
  {
    Reaction(s, Some(Broadcast(MembersOf(s, roomId) - {c}, UserTyping(UsernameOf(s.sessions[c]), isTyping))))
  }

  /** `disconnect`: the handler only logs. */
  function OnDisconnect(s: Server, c: ConnId): (x: Reaction)
    requires c in s.sessions
    ensures x.server == s && x.out.None?
  {
    Reaction(s, None)
  }

  /** Routes a client event to its handler. */
  function Handle(s: Server, c: ConnId, ev: ClientEvent, clock: Clock): (x: Reaction)
    requires c in s.sessions
    ensures Valid(s) ==> Valid(x.server)
    ensures x.server.sessions == s.sessions
    ensures forall q :: MembersOf(s, q) <= MembersOf(x.server, q)
    ensures forall q :: MembersOf(x.server, q) <= MembersOf(s, q) + {c}
    ensures x.out.Some? ==> x.out.value.recipients <= MembersOf(s, ev.roomId)
  {
    match ev
    case JoinRoom(r) => OnJoinRoom(s, c, r)
    case SendMessage(r, m) => OnSendMessage(s, c, r, m, clock)
    case Typing(r, t) => OnTyping(s, c, r, t)
  }

  /** The attribution of a relayed message or typing signal depends on the
      connection alone: two payloads from one connection are attributed
      identically, whatever room or text they name. */
  lemma AttributionIgnoresPayload(s: Server, c: ConnId, r1: RoomId, m1: string, r2: RoomId, m2: string,
                                  k1: Clock, k2: Clock, t1: bool, t2: bool)
    requires c in s.sessions
    ensures var d1 := OnSendMessage(s, c, r1, m1, k1).out.value.event.data;
            var d2 := OnSendMessage(s, c, r2, m2, k2).out.value.event.data;
            d1.user == d2.user && d1.userId == d2.userId
    ensures OnTyping(s, c, r1, t1).out.value.event.username
         == OnTyping(s, c, r2, t2).out.value.event.username
  {
  }
}

=== FILE: text.dfy ===
/** Strings as the client's form and composer code sees them: JavaScript's
    `String.prototype.trim` and the "blank after trimming" test built on it. */
module Text {

  /** The code points `trim` removes: ECMAScript's WhiteSpace and
      LineTerminator productions (tab, vertical tab, form feed, space,
      no-break space, byte order mark, the Space_Separator category, line
      feed, carriage return, line and paragraph separators). */
  predicate IsSpace(c: char) {
    || ('\t' <= c <= '\r') || c == ' ' || c == '\U{00A0}' || c == '\U{1680}'
    || ('\U{2000}' <= c <= '\U{200A}')
    || c == '\U{2028}' || c == '\U{2029}' || c == '\U{202F}' || c == '\U{205F}'
    || c == '\U{3000}' || c == '\U{FEFF}'
  }

  /** Every character of `s` is whitespace (vacuously true of ""). */
  predicate AllSpace(s: string) {
    forall i :: 0 <= i < |s| ==> IsSpace(s[i])
  }

  lemma AllSpaceConcat(a: string, b: string)
    ensures AllSpace(a + b) <==> AllSpace(a) && AllSpace(b)
  {
    if AllSpace(a) && AllSpace(b) {
      forall i | 0 <= i < |a + b| ensures IsSpace((a + b)[i]) {
        if i < |a| { assert (a + b)[i] == a[i]; } else { assert (a + b)[i] == b[i - |a|]; }
      }
    }
    if AllSpace(a + b) {
      forall i | 0 <= i < |a| ensures IsSpace(a[i]) { assert (a + b)[i] == a[i]; }
      forall i | 0 <= i < |b| ensures IsSpace(b[i]) { assert (a + b)[|a| + i] == b[i]; }
    }
  }

  /** How many whitespace characters `s` starts with. */
  function LeadingSpaces(s: string): (n: nat)
    ensures n <= |s| && AllSpace(s[..n])
    ensures n < |s| ==> !IsSpace(s[n])
  {
    if |s| > 0 && IsSpace(s[0]) then
      var m := LeadingSpaces(s[1..]);
      assert s[..m + 1] == [s[0]] + s[1..][..m];
      AllSpaceConcat([s[0]], s[1..][..m]);
      m + 1
    else
      0
  }

  /** Where the whitespace `s` ends with begins. */
  function TrailingStart(s: string): (n: nat)
    ensures n <= |s| && AllSpace(s[n..])
    ensures n > 0 ==> !IsSpace(s[n - 1])
  {
    if |s| > 0 && IsSpace(s[|s| - 1]) then
      var m := TrailingStart(s[..|s| - 1]);
      assert s[m..] == s[..|s| - 1][m..] + [s[|s| - 1]];
      AllSpaceConcat(s[..|s| - 1][m..], [s[|s| - 1]]);
      m
    else
      |s|
  }

  /** `r` is what `trim` leaves of `s`: a slice of `s` with only whitespace
      before and after it, that neither starts nor ends with whitespace, and
      that is empty exactly when `s` is all whitespace. */
  ghost predicate TrimmedFrom(s: string, r: string) {
    && |r| <= |s|
    && (exists i :: 0 <= i && i + |r| <= |s| && r == s[i..i + |r|] && AllSpace(s[..i]) && AllSpace(s[i + |r|..]))
    && (r == [] <==> AllSpace(s))
    && (r != [] ==> !IsSpace(r[0]) && !IsSpace(r[|r| - 1]))
  }

  /** The slice of `s` that starts after `i` leading whitespace characters
      and has length `n`, where whitespace is all that follows it. */
  function Between(s: string, i: nat, n: nat): (r: string)
    requires i <= |s| && AllSpace(s[..i]) && (i < |s| ==> !IsSpace(s[i]))
    requires n <= |s| - i && AllSpace(s[i + n..]) && (n > 0 ==> !IsSpace(s[i + n - 1]))
    ensures TrimmedFrom(s, r)
  {
    BetweenEmptyIffAllSpace(s, i, n);
    var r := s[i..i + n];
    assert |r| == n && r == s[i..i + |r|] && AllSpace(s[i + |r|..]);
    assert n > 0 ==> r[0] == s[i] && r[|r| - 1] == s[i + n - 1];
    r
  }

  lemma BetweenEmptyIffAllSpace(s: string, i: nat, n: nat)
    requires i <= |s| && AllSpace(s[..i]) && (i < |s| ==> !IsSpace(s[i]))
    requires n <= |s| - i && AllSpace(s[i + n..])
    ensures n == 0 <==> AllSpace(s)
  {
    if n == 0 {
      assert s[..i] == s;
    }
  }

  /** Facts about the tail of `s[i..]` are facts about the tail of `s`. */
  lemma TailOfSuffix(s: string, i: nat, n: nat)
    requires i <= |s| && n <= |s| - i
    requires AllSpace(s[i..][n..]) && (n > 0 ==> !IsSpace(s[i..][n - 1]))
    ensures AllSpace(s[i + n..]) && (n > 0 ==> !IsSpace(s[i + n - 1]))
  {
    assert s[i..][n..] == s[i + n..];
    if n > 0 {
      assert s[i..][n - 1] == s[i + n - 1];
    }
  }

  /** `s.trim()`: the slice of `s` between its leading and its trailing
      whitespace. */
  function Trim(s: string): (r: string)
    ensures TrimmedFrom(s, r)
  {
    var i := LeadingSpaces(s);
    var n := TrailingStart(s[i..]);
    TailOfSuffix(s, i, n);
    Between(s, i, n)
  }

  /** `!s.trim()`: JavaScript treats the empty trimmed string as false. */
  predicate IsBlank(s: string) {
    Trim(s) == []
  }
}
